=== FILE: README.md ===
# react-div-contenteditable: selection and caret logic

A Dafny model of the logic inside a React component that turns a
`contentEditable` div into a controlled plain-text input. Two parts are modelled:

- the selection and caret helpers of `src/dom.js` (module `Dom`, file
  `dom.dfy`);
- the component's event handlers and render-commit step in `src/index.js`
  (module `Editable`, file `editable.dfy`).

`wrappers.dfy` holds `Option` and `Result`.

The browser appears only as plain records:

- **`DomSel`** is the browser selection: either no selection (type "None") or
  one range whose two ends lie in one node.
- **`SelOp`** is one selection call: `collapse`, `removeAllRanges` or
  `addRange`. A helper that changes the selection returns the calls it makes.
  `Apply` gives the selection those calls leave.
  - A range built with `setStart(s)` and then `setEnd(e)` follows the DOM
    Standard's "set the start or end" rule: an end before the start moves the
    start too.
  - `addRange` does nothing while a range is present (Selection API).
- **`View`** is the layout. It holds the window scroll, the element's offset
  position, and the client rect the browser reports for a caret at each text
  index.
- **`Element`** is the editable element: its id and the data of its text
  children. Offsets count UTF-16 code units of the whole text, as JavaScript's
  `length` and DOM offsets do, and are placed in the first child
  (`getFirstChildOrElement`).

The component's one piece of held state is the pending selection. `State`
records it together with:

- the browser selection;
- whether the element has the focus;
- the element's children.

Each handler returns the next state and its effects in order. Effects are
selection calls, `preventDefault`/`stopPropagation`, text insertion, `focus`,
and the consumer callbacks it invokes.

Notes on the code:

- This version of the component has no selection-request prop, that is, no
  `{position | index}` request deduplicated by value and cleared on blur. It
  has only `lastCaretRect`, which is used on every render while `autoFocus`
  is set. Blur clears only the pending selection. The model follows the code.
- After a paste, the code calls `props.onInput` directly. It does not run the
  input handler. See the findings below.
- The arrow-key enrichment in `handleKeyDown` runs whether or not a selection
  exists. Without one it throws before `onKeyDown` runs. See the findings below.

## Model

| member | source | states |
|---|---|---|
| Dom.ContainingDiv | src/dom.js:1-7 | an element is its own containing element; a text node's containing element is its parent |
| Dom.TextOf | src/dom.js:9-11 | an element without children has empty text; the first child's data is a prefix of the element's text |
| Dom.ConcatAppend | src/dom.js:9-11 | the text of a run of children is the text of its parts joined in order |
| Dom.Utf16Length | src/dom.js:147 | a string's length counts UTF-16 code units: at least its number of characters and at most twice that, equal exactly when every character lies in the Basic Multilingual Plane |
| Dom.Utf16LengthAppend | src/dom.js:177 | the code-unit length of joined strings is the sum of their lengths |
| Dom.TextLength | src/dom.js:147 | `getText(element).length`: between the number of characters of the text and twice that, and 0 for an element without children |
| Dom.FirstChildOrElement | src/dom.js:13-15 | the node offsets are counted in belongs to the element, and is its first text child (index 0) exactly when the element has children, the element itself otherwise |
| Dom.Clip | src/dom.js:82-84 | for lo ≤ hi the result lies in [lo, hi] and is the point of the interval nearest to v; a value already in range comes back unchanged |
| Dom.ClipEnd | src/dom.js:149 | clipping an absent end leaves it absent; a present end is clipped into range |
| Dom.SetDomSelection | src/dom.js:143-162 | no selection only removes all ranges; otherwise both offsets are clipped to the text length in UTF-16 code units; a missing end or equal clipped offsets give one collapse at the clipped start; anything else gives removeAllRanges plus one range with start and end not reordered; every call targets the element's first child inside the text |
| Dom.GetDomSelection | src/dom.js:129-141 | a result exists exactly when there is a selection and no element is given or the anchor's containing element is that element; it is then the range's start and end offsets |
| Dom.SetOverridesPrior | src/dom.js:145-158 | setting a selection leaves the same browser selection whatever selection was there before |
| Dom.SetThenGet | src/dom.js:143-162 | reading back after setDomSelection: nothing after a clear; otherwise the clipped offsets, a missing end read as the start, a reversed pair as a caret at its clipped end |
| Dom.SetThenGetRoundTrip | src/dom.js:143-162 | an ordered pair inside the text survives setDomSelection then getDomSelection unchanged |
| Dom.GetThenSetRoundTrip | src/dom.js:129-162 | a selection captured by getDomSelection and given back to setDomSelection is restored exactly, when it was an ordered range in the first child inside the text |
| Dom.InsertTextAtSelection | src/dom.js:164-179 | no selection throws IndexSizeError; given a selection, a TypeError happens exactly when the selection read back after the insertion is absent or lies in another element, and success exactly when it is readable there; on success, one collapse to start-after-insertion + the text's length in UTF-16 code units, clipped to the new text, and no range is left selected |
| Dom.InsertedCaretFollowsText | src/dom.js:173-178 | when the selection read back sits right before the pasted text in a single text child, the insertion succeeds and the caret lands right after the pasted text, at the code-unit length of everything before it plus the text |
| Dom.GetCaretRect | src/dom.js:57-73 | absent exactly when there is no selection; a rect of positive height is moved by the scroll offsets; otherwise the element's offset position with zero size |
| Dom.IsEqualCaretRect | src/dom.js:75-80 | true exactly when both rects are absent or both are present and equal in x, y, w and h, hence reflexive, symmetric and transitive |
| Dom.CaretRectByIndex | src/dom.js:90-100 | collapses the selection at index i without clipping; reading the selection back gives {start: i, end: i}; the rect is what getCaretRect reports there, tagged start = i, length = 0 |
| Dom.CaretRects | src/dom.js:102-108 | exactly text length (UTF-16 code units) + 1 candidates, the i-th tagged start = i, length = 0 and measured at index i |
| Dom.CaretScanLeavesCaretAtEnd | src/dom.js:102-108 | measuring every caret position leaves the caret collapsed at the end of the text |
| Dom.SqDist | src/dom.js:86-88 | the squared distance is never negative, and is zero exactly when the two points coincide |
| Dom.FirstNearest | src/dom.js:114-120 | the scan that replaces its candidate only on a strictly smaller distance ends on the first candidate of minimum distance |
| Dom.FirstNearestUnique | src/dom.js:114-120 | the first candidate of minimum distance is unique |
| Dom.NearestCaretStart | src/dom.js:110-122 | the returned start lies in [0, text length] and is the index of the first caret nearest to the point |
| Dom.FindNearestCaretStart | src/dom.js:110-122 | the loop returns a start in [0, text length] that is the first caret at minimum distance from the point (earliest index wins ties), the same as the functional scan |
| Dom.MeasuredCaret | src/dom.js:90-100 | a caret measured at a laid-out index sits at the layout's client rect moved by the scroll offsets |
| Dom.ExampleCaretRects | src/dom.test.js:226-237 | for "ABC" with carets at x = 0, 2, 4, 6 and y = 3 the rects are exactly those four, tagged 0..3 |
| Dom.NearestCaretExample | src/dom.test.js:253-259 | in that layout the point (2, 10) is nearest to index 1 |
| Editable.IsAllowedKeyDown | src/index.js:15-33 | false exactly when ctrl or meta is held and the key is one of B, b, I, i, U, u |
| Editable.HandleKeyDown | src/index.js:84-101 | preventDefault happens exactly when the key is not allowed; a TypeError is thrown, last, exactly for ArrowUp or ArrowDown without a selection; onKeyDown is called, last, exactly when supplied and no TypeError was thrown; nothing else happens |
| Editable.HandleKeyDownGuarded | src/index.js:84-101 | with the caret measurements taken only while a selection exists, preventDefault exactly for a refused key and onKeyDown, last, exactly when supplied |
| Editable.KeyDownGuardAgrees | src/index.js:92-96 | the guarded and the written handler behave the same exactly when the key is not an up or down arrow pressed without a selection |
| Editable.InputOutsideThenArrowKeyThrows | src/index.js:92-100 | after an input whose selection lies outside the element and a commit without autoFocus, no selection exists and ArrowDown throws without reaching onKeyDown |
| Editable.HandleFocusLost | src/index.js:77-82 | only the pending selection changes (to absent); onFocusLost is the only effect, exactly when supplied |
| Editable.CaptureAndClear | src/index.js:110-116 | the pending selection becomes the browser selection read for this element (absent outside it), the browser selection is cleared by one removeAllRanges, focus and content are untouched |
| Editable.HandleInput | src/index.js:109-121 | captures then clears as above; its only other effect is onInput, called last exactly when supplied |
| Editable.RemoveLeftoverLineBreak | src/index.js:42-46 | a first child whose text is exactly "\n" is removed (the text loses exactly that leading line break); any other first child stays |
| Editable.SelectionAfterFirstChildRemoved | src/index.js:44-45 | removing the first child moves the selection as the DOM Standard's "remove" steps do: a boundary in the removed node goes to (element, 0), an offset in the element past it drops by one, later children move down one index; no selection stays none, and a selection in another element is unchanged; the containing element never changes |
| Editable.CleanupKeepsSelectionInElement | src/index.js:42-46 | removing the leftover line break keeps a selection that lies in the element inside it, and one outside it outside |
| Editable.PlaceNearestCaret | src/index.js:50-54 | whatever the selection was, the autoFocus step leaves a caret at the nearest caret index in the first child |
| Editable.RenderCommit | src/index.js:39-63 | the commit keeps the pending selection, cleans the element, leaves it focused when it was or autoFocus is set, issues focus() exactly with autoFocus, and otherwise has only selection calls, never a consumer callback; its selection effects are stated by the lemmas below |
| Editable.CommitEffects | src/index.js:48-62 | the commit's effects are selection calls and focus(), with focus() present exactly with autoFocus |
| Editable.CommitRestoresPending | src/index.js:48-62 | with a selection pending and the focus, the commit ends with the pending selection as setDomSelection installs it, overriding the nearest-caret placement |
| Editable.CommitKeepsSelection | src/index.js:42-62 | without a caret to place near lastCaretRect, and with nothing pending or no focus even after autoFocus, the commit moves the selection only as removing a leftover line break does, and not at all when there is none |
| Editable.LineBreakRemovalMovesCaret | src/index.js:44-45 | a caret inside Firefox's leftover line break reads back as {0, 0} once the commit has removed that node |
| Editable.AutoFocusPlacesNearestCaret | src/index.js:48-57 | with autoFocus, a lastCaretRect and nothing pending, the caret ends collapsed at the nearest caret index |
| Editable.InputThenCommitRestoresSelection | src/index.js:59-62 | with the element focused, no leftover line break, and the user's selection an ordered range inside the text of the first child, input followed by a render puts back exactly that selection, with or without autoFocus |
| Editable.FocusLostThenCommitKeepsSelection | src/index.js:77-82 | after blur, a commit without a caret to place near lastCaretRect no longer restores anything: the selection moves only as removing a leftover line break does |
| Editable.PasteAfterConsumer | src/index.js:143-153 | after onPaste: default and propagation are suppressed exactly when the event is unhandled and has clipboard data; only the clipboard's text is ever inserted; it goes on to onInput exactly when the text is unhandled, non-empty plain text and the insertion succeeds, and the text is then inserted; a failed insertion ends in its exception with the state unchanged; the state afterwards is the inserted one (as written) or its capture (input path); no callback is called here |
| Editable.Paste | src/index.js:135-154 | onPaste is notified exactly when supplied, and then first; the state is the one the part after onPaste leaves |
| Editable.HandlePaste | src/index.js:135-154 | onPaste first when supplied; no callback other than onPaste and onInput; preventDefault and stopPropagation exactly when unhandled with clipboard data; only the clipboard's non-empty plain text is inserted; when that insertion succeeds the text is inserted and onInput is called exactly when supplied, at most once and last, with the state the insertion leaves; a failed insertion raises its error without onInput; otherwise nothing changes and onInput is not called; the pending selection is untouched |
| Editable.PasteOrder | src/index.js:135-154 | onPaste is the first effect exactly when supplied, onInput is the last when called and only after the text went in, and no other callback is called |
| Editable.PasteSuppression | src/index.js:143-148 | preventDefault and stopPropagation come together, exactly for an unhandled paste with clipboard data |
| Editable.PasteInputOnce | src/index.js:147-152 | onInput occurs at most once among a paste's effects |
| Editable.PasteOutcome | src/index.js:143-153 | an unhandled non-empty paste whose insertion succeeds inserts the text and calls onInput exactly when supplied; a failed insertion raises its error and skips onInput; any other paste calls no onInput |
| Editable.HandlePasteViaInput | src/index.js:135-154 | the corrected paste: the same callbacks (only onPaste and onInput), order, suppression, insertion, exception and onInput guarantees as handlePaste, and after a successful insertion the state is the input path's capture of it: the caret after the pasted text pending and the browser selection cleared |
| Editable.PasteRestoresStaleSelection | src/index.js:147-152 | as written, pasting "X" after "ab" leaves the caret at 3, and the next render moves it back to the pending 0 |
| Editable.PasteViaInputThenCommitKeepsCaret | src/index.js:147-152 | when the element is focused, the selection lies in it, the insertion succeeds and leaves no leftover line break, the corrected paste followed by a render keeps the caret exactly where the paste put it, right after the pasted text, with or without autoFocus and whatever was pending |

## Findings

| source | as written | input that shows it | evidently intended | confidence | as-written member | corrected member |
|---|---|---|---|---|---|---|
| src/index.js:147-152 | after inserting pasted text the handler calls `props.onInput` directly, so the pending selection keeps what the last typed input captured, and the render that onInput triggers restores that older selection | focused element "ab", caret captured at 0 by an earlier input, caret at 2, paste "X": the caret is at 3 after the paste and at 0 after the next render | the paste goes through the input path, so the caret after the pasted text becomes the pending selection | medium; not executed | Editable.HandlePaste, shown by Editable.PasteRestoresStaleSelection | Editable.HandlePasteViaInput, proved by Editable.PasteViaInputThenCommitKeepsCaret |
| src/index.js:92-96 | the arrow-key enrichment runs for every ArrowUp and ArrowDown; getCaretLine reads `.y` of getCaretRect, which is undefined without a selection, so the handler throws and onKeyDown never runs | an input whose selection lies outside the element leaves nothing pending and the selection cleared, a commit without autoFocus keeps it so, then ArrowDown is pressed | the caret measurements are taken only while a selection exists, and onKeyDown always runs when supplied | low; not executed | Editable.HandleKeyDown, shown by Editable.InputOutsideThenArrowKeyThrows | Editable.HandleKeyDownGuarded, related by Editable.KeyDownGuardAgrees |

## Left out

- `getPaddedSize`, `getLineHeight`, `getLineCount`, `getCaretLine` (src/dom.js:17-51, 124-127): they parse CSS strings, round float divisions and probe the line height with a cloned element.
- The values the arrow-key enrichment of `handleKeyDown` adds (src/index.js:90-96): they come from those measurements, which are called without a line height. Only the TypeError the enrichment throws without a selection is modelled.
- `calculateDistance` (src/dom.js:86-88): the model compares squared integer distances. The square root is strictly increasing, so the first nearest index is the same.
- `getText`'s `innerText` fallback (src/dom.js:9-11): the element's text is the data of its text children.
- `hasSelection` (src/dom.js:53-55) is the `NoSelection` case of `DomSel`.
- Dom.InsertTextAtSelection: does not model the DOM mutation (`deleteContents`, `insertNode`, `normalize`). The selection read back after insertion and the element's children afterwards are inputs. When reading back throws, the model keeps the element and selection as they were.
- Dom.CaretRects: the scan runs to `innerText.length`, taken here to equal the code-unit length of the text children's data. In a browser `innerText` can differ: it collapses white space and renders line breaks.
- Dom.TextOf: strings are sequences of Unicode code points, and lengths are converted to UTF-16 code units by Utf16Length. No offset is used to index into a string, so the difference in units does not reach any other member.
- Dom.GetCaretRect: coordinates are integers, while browsers report fractional pixels.
- Dom.SetDomSelection: offsets count UTF-16 code units of the whole text, all placed in the first child. A `collapse` or `setStart` past the first child's own length, which throws in a browser, is not modelled. Ranges spanning several nodes are not modelled either.
- `element.focus()` is an effect only. The focus event it fires (onFocus) and any caret placement the browser makes on focus are not modelled.
- React rendering and reconciliation of `value` are not modelled. The element's children at commit time are part of the state.
- React's `setSelection` is treated as an immediate update.
- PropTypes, CSS modules and the pass-through callbacks (click, focus, keyup, copy, cut) are left out because they hold no logic.
- JavaScript numbers are unbounded integers here. The offsets involved are text positions, far from any precision limit.
- example/src/App.js (a demo page) is not part of this model.

=== FILE: dom.dfy ===
/** The selection and caret helpers of the editable div (src/dom.js).

    The browser's Selection, Range and client rects are plain records here.
    The browser itself enters only as data: the selection before a call, and
    a `View` that says where the browser lays out a caret at each text index.
    A call that changes the selection returns the sequence of selection
    operations it issues; `Apply` says what those operations leave behind. */
module Dom {
  import opened Wrappers

  // ---------------------------------------------------------------------
  // Nodes

  /** A DOM node as far as the helpers look at it: an element, or the
      `index`-th text child of the element `parent`. */
  datatype Node = ElementNode(id: nat) | TextNode(parent: nat, index: nat)

  /** An editable element: its identity and the data of its text children. */
  datatype Element = Element(id: nat, children: seq<string>)

  function Concat(parts: seq<string>): string
  {
    if |parts| == 0 then "" else parts[0] + Concat(parts[1..])
  }

  /** The text of a run of children is the text of its parts, in order. */
  lemma {:induction false} ConcatAppend(a: seq<string>, b: seq<string>)
    ensures Concat(a + b) == Concat(a) + Concat(b)
    decreases |a|
  {
    if |a| == 0 {
      assert a + b == b;
    } else {
      assert (a + b)[1..] == a[1..] + b;
      ConcatAppend(a[1..], b);
    }
  }

  /** The element's text (getText): its text children in order, so an
      element without children has no text and the first child's data comes
      first. */
  function TextOf(el: Element): (t: string)
    ensures |el.children| == 0 ==> t == ""
    ensures |el.children| > 0 ==> el.children[0] <= t
  {
    Concat(el.children)
  }

  /** JavaScript's `length` of a string: UTF-16 code units, so a character
      outside the Basic Multilingual Plane counts twice. DOM offsets into
      text use the same unit. */
  function Utf16Length(s: string): (n: nat)
    ensures |s| <= n <= 2 * |s|
    ensures n == |s| <==> forall i :: 0 <= i < |s| ==> s[i] as int <= 0xFFFF
    decreases |s|
  {
    if |s| == 0 then 0
    else
      var rest := Utf16Length(s[1..]);
      assert forall i :: 1 <= i < |s| ==> s[i] == s[1..][i - 1];
      (if s[0] as int > 0xFFFF then 2 else 1) + rest
  }

  /** Lengths in code units add up over concatenation. */
  lemma {:induction false} Utf16LengthAppend(a: string, b: string)
    ensures Utf16Length(a + b) == Utf16Length(a) + Utf16Length(b)
    decreases |a|
  {
    if |a| == 0 {
      assert a + b == b;
    } else {
      assert (a + b)[1..] == a[1..] + b;
      assert (a + b)[0] == a[0];
      Utf16LengthAppend(a[1..], b);
    }
  }

  /** `getText(element).length`, in UTF-16 code units. */
  function TextLength(el: Element): (n: nat)
    ensures |TextOf(el)| <= n <= 2 * |TextOf(el)|
    ensures |el.children| == 0 ==> n == 0
  {
    Utf16Length(TextOf(el))
  }

  /** getContainingDiv: a text node's parent element, or the element itself. */
  function ContainingDiv(n: Node): (id: nat)
    ensures n.ElementNode? ==> id == n.id
    ensures n.TextNode? ==> id == n.parent
  {
    match n
    case ElementNode(id) => id
    case TextNode(parent, _) => parent
  }

  /** getFirstChildOrElement: the node that offsets are counted in. */
  function FirstChildOrElement(el: Element): (n: Node)
    ensures ContainingDiv(n) == el.id
    ensures n.TextNode? <==> |el.children| > 0
    ensures n.TextNode? ==> n.index == 0
  {
    if |el.children| > 0 then TextNode(el.id, 0) else ElementNode(el.id)
  }

  // ---------------------------------------------------------------------
  // Selections

  /** The plain selection of the component: character offsets, where the
      end may be absent (a caret request such as the one made after a paste). */
  datatype Sel = Sel(start: int, end: Option<int>)

  /** The browser's selection: none (type "None"), or one range whose
      boundary points both lie in `anchor`. */
  datatype DomSel = NoSelection | Selected(anchor: Node, startOffset: int, endOffset: int)
  {
    /** Selection type "Caret": a collapsed range. */
    predicate IsCaret()
    {
      Selected? && startOffset == endOffset
    }
  }

  /** The selection calls the helpers make. */
  datatype SelOp =
    | Collapse(node: Node, offset: int)
    | RemoveAllRanges
    | AddRange(node: Node, start: int, end: int)

  /** The range built by createRange, setStart(n, s), setEnd(n, e). Under the
      DOM Standard's "set the start or end" rule, an end placed before the
      start drags the start along, so a reversed pair leaves a caret at e. */
  function NewRange(n: Node, s: int, e: int): DomSel
  {
    if e < s then Selected(n, e, e) else Selected(n, s, e)
  }

  /** One selection call. addRange does nothing while a range is present
      (Selection API); the helpers always clear first. */
  function ApplyOp(d: DomSel, op: SelOp): DomSel
  {
    match op
    case Collapse(n, o) => Selected(n, o, o)
    case RemoveAllRanges => NoSelection
    case AddRange(n, s, e) => if d.NoSelection? then NewRange(n, s, e) else d
  }

  /** The selection left after issuing `ops` in order. */
  function Apply(d: DomSel, ops: seq<SelOp>): DomSel
    decreases |ops|
  {
    if |ops| == 0 then d else Apply(ApplyOp(d, ops[0]), ops[1..])
  }

  lemma ApplyOne(d: DomSel, op: SelOp)
    ensures Apply(d, [op]) == ApplyOp(d, op)
  {
  }

  lemma ApplyTwo(d: DomSel, op1: SelOp, op2: SelOp)
    ensures Apply(d, [op1, op2]) == ApplyOp(ApplyOp(d, op1), op2)
  {
    assert [op1, op2][1..] == [op2];
    ApplyOne(ApplyOp(d, op1), op2);
  }

  lemma {:induction false} ApplyConcat(d: DomSel, a: seq<SelOp>, b: seq<SelOp>)
    ensures Apply(d, a + b) == Apply(Apply(d, a), b)
    decreases |a|
  {
    if |a| == 0 {
      assert a + b == b;
    } else {
      assert (a + b)[1..] == a[1..] + b;
      ApplyConcat(ApplyOp(d, a[0]), a[1..], b);
    }
  }

  function Dist(a: int, b: int): nat
  {
    if a < b then b - a else a - b
  }

  /** clip: clamps v into [lo, hi]. When the interval is not empty the result
      is its point nearest to v, and v itself when v already lies inside. */
  function Clip(v: int, lo: int, hi: int): (r: int)
    ensures lo <= hi ==> lo <= r <= hi
    ensures lo <= v <= hi ==> r == v
    ensures lo <= hi ==> forall w :: lo <= w <= hi ==> Dist(r, v) <= Dist(w, v)
  {
    if v > hi then hi else if v < lo then lo else v
  }

  /** clip applied to a possibly absent end: `undefined` passes through. */
  function ClipEnd(v: Option<int>, lo: int, hi: int): (r: Option<int>)
    ensures r.None? <==> v.None?
    ensures r.Some? && lo <= hi ==> lo <= r.value <= hi
    ensures r.Some? && lo <= v.value <= hi ==> r.value == v.value
  {
    match v
    case None => None
    case Some(e) => Some(Clip(e, lo, hi))
  }

  /** The operation targets the element's first child (or the element) at
      offsets inside its text. */
  predicate WithinText(op: SelOp, el: Element)
  {
    match op
    case Collapse(n, o) => n == FirstChildOrElement(el) && 0 <= o <= TextLength(el)
    case RemoveAllRanges => true
    case AddRange(n, s, e) =>
      n == FirstChildOrElement(el) && 0 <= s <= TextLength(el) && 0 <= e <= TextLength(el)
  }

  /** setDomSelection. No selection clears all ranges and nothing more.
      Otherwise both offsets are clipped to the text; a missing end or equal
      clipped offsets collapse to a caret at the clipped start, and anything
      else installs exactly one range with start and end as given (not
      reordered). */
  function SetDomSelection(el: Element, sel: Option<Sel>): (ops: seq<SelOp>)
    ensures sel.None? ==> ops == [RemoveAllRanges]
    ensures forall i :: 0 <= i < |ops| ==> WithinText(ops[i], el)
    ensures sel.Some? ==>
      var s := Clip(sel.value.start, 0, TextLength(el));
      var e := ClipEnd(sel.value.end, 0, TextLength(el));
      if e.None? || e.value == s then ops == [Collapse(FirstChildOrElement(el), s)]
      else ops == [RemoveAllRanges, AddRange(FirstChildOrElement(el), s, e.value)]
  {
    match sel
    case None => [RemoveAllRanges]
    case Some(x) =>
      var node := FirstChildOrElement(el);
      var len := TextLength(el);
      var start := Clip(x.start, 0, len);
      var end := ClipEnd(x.end, 0, len);
      if end.None? || start == end.value then [Collapse(node, start)]
      else [RemoveAllRanges, AddRange(node, start, end.value)]
  }

  /** getDomSelection. Nothing when there is no selection, or when an element
      is given and the selection's anchor lies in a different element;
      otherwise the offsets of the selection's range. */
  function GetDomSelection(el: Option<nat>, d: DomSel): (r: Option<Sel>)
    ensures r.Some? <==> d.Selected? && (el.None? || ContainingDiv(d.anchor) == el.value)
    ensures r.Some? ==> r.value == Sel(d.startOffset, Some(d.endOffset))
  {
    if d.Selected? && (el.None? || ContainingDiv(d.anchor) == el.value) then
      Some(Sel(d.startOffset, Some(d.endOffset)))
    else
      None
  }

  /** What setDomSelection leaves behind does not depend on the selection it
      found, except when it clears. */
  lemma SetOverridesPrior(el: Element, x: Sel, d1: DomSel, d2: DomSel)
    ensures Apply(d1, SetDomSelection(el, Some(x))) == Apply(d2, SetDomSelection(el, Some(x)))
  {
  }

  /** Reading back what setDomSelection installed: nothing after a clear;
      otherwise the clipped offsets, a missing end read back as the start and
      a reversed pair read back as a caret at its end. */
  lemma SetThenGet(el: Element, sel: Option<Sel>, d: DomSel)
    ensures sel.None? ==> GetDomSelection(Some(el.id), Apply(d, SetDomSelection(el, sel))).None?
    ensures sel.Some? ==>
      var s := Clip(sel.value.start, 0, TextLength(el));
      var e := if sel.value.end.None? then s else Clip(sel.value.end.value, 0, TextLength(el));
      GetDomSelection(Some(el.id), Apply(d, SetDomSelection(el, sel)))
        == Some(if e < s then Sel(e, Some(e)) else Sel(s, Some(e)))
  {
    var ops := SetDomSelection(el, sel);
    if |ops| == 1 {
      ApplyOne(d, ops[0]);
    } else {
      ApplyTwo(d, ops[0], ops[1]);
    }
  }

  /** An ordered selection inside the text survives setDomSelection followed
      by getDomSelection unchanged. */
  lemma SetThenGetRoundTrip(el: Element, s: int, e: int, d: DomSel)
    requires 0 <= s <= e <= TextLength(el)
    ensures GetDomSelection(Some(el.id), Apply(d, SetDomSelection(el, Some(Sel(s, Some(e))))))
            == Some(Sel(s, Some(e)))
  {
    SetThenGet(el, Some(Sel(s, Some(e))), d);
  }

  /** Capturing a selection with getDomSelection and later giving it back to
      setDomSelection restores the very same browser selection, provided it
      was an ordered range in the first child within the text. */
  lemma GetThenSetRoundTrip(el: Element, d: DomSel, later: DomSel)
    requires d.Selected? && d.anchor == FirstChildOrElement(el)
    requires 0 <= d.startOffset <= d.endOffset <= TextLength(el)
    ensures Apply(later, SetDomSelection(el, GetDomSelection(Some(el.id), d))) == d
  {
    var ops := SetDomSelection(el, GetDomSelection(Some(el.id), d));
    if |ops| == 1 {
      ApplyOne(later, ops[0]);
    } else {
      ApplyTwo(later, ops[0], ops[1]);
    }
  }

  // ---------------------------------------------------------------------
  // Pasting text

  datatype JsError = IndexSizeError | TypeError

  /** What the browser leaves after deleteContents, insertNode and normalize:
      the selection read back right after the insertion, and the text
      children of the element the selection is in. */
  datatype Insertion = Insertion(selection: DomSel, children: seq<string>)

  /** The result of a successful insertion: the element written to, the
      selection calls issued, and the selection they leave. */
  datatype Inserted = Inserted(target: Element, ops: seq<SelOp>, selection: DomSel)

  /** insertTextAtSelection. getRangeAt(0) throws when there is no selection;
      reading `.start` of an absent selection after the insertion throws too.
      Otherwise the caret is collapsed `text.length` code units after the
      start read back, clipped to the new text, and no range stays selected. */
  function InsertTextAtSelection(d: DomSel, text: string, ins: Insertion): (r: Result<Inserted, JsError>)
    ensures d.NoSelection? ==> r == Failure(IndexSizeError)
    ensures d.Selected? ==>
      (r == Failure(TypeError) <==> GetDomSelection(Some(ContainingDiv(d.anchor)), ins.selection).None?)
    ensures r.Success? <==> d.Selected? && GetDomSelection(Some(ContainingDiv(d.anchor)), ins.selection).Some?
    ensures r.Success? ==>
      && d.Selected?
      && r.value.target == Element(ContainingDiv(d.anchor), ins.children)
      && ins.selection.Selected?
      && var c := Clip(ins.selection.startOffset + Utf16Length(text), 0, TextLength(r.value.target));
         && 0 <= c <= TextLength(r.value.target)
         && r.value.ops == [Collapse(FirstChildOrElement(r.value.target), c)]
         && r.value.selection == Selected(FirstChildOrElement(r.value.target), c, c)
  {
    if d.NoSelection? then Failure(IndexSizeError)
    else
      var id := ContainingDiv(d.anchor);
      match GetDomSelection(Some(id), ins.selection)
      case None => Failure(TypeError)
      case Some(after) =>
        var target := Element(id, ins.children);
        var ops := SetDomSelection(target, Some(Sel(after.start + Utf16Length(text), None)));
        ApplyOne(ins.selection, ops[0]);
        Success(Inserted(target, ops, Apply(ins.selection, ops)))
  }

  /** When the selection read back after the insertion sits right before
      the pasted text, the caret ends right after it, `text.length` code
      units further on, and inside the new text. */
  lemma InsertedCaretFollowsText(d: DomSel, before: string, text: string, after: string, ins: Insertion)
    requires d.Selected?
    requires ins.children == [before + text + after]
    requires ins.selection
          == Selected(TextNode(ContainingDiv(d.anchor), 0), Utf16Length(before), Utf16Length(before))
    ensures var r := InsertTextAtSelection(d, text, ins);
      && r.Success?
      && TextOf(r.value.target) == before + text + after
      && r.value.selection == Selected(TextNode(ContainingDiv(d.anchor), 0),
                                       Utf16Length(before + text), Utf16Length(before + text))
  {
    var target := Element(ContainingDiv(d.anchor), ins.children);
    assert ins.children[1..] == [];
    assert Concat(ins.children) == ins.children[0] + Concat(ins.children[1..]);
    assert (before + text + after) + "" == before + text + after;
    assert TextOf(target) == before + text + after;
    Utf16LengthAppend(before, text);
    Utf16LengthAppend(before + text, after);
    assert Utf16Length(before + text) <= TextLength(target);
  }

  // ---------------------------------------------------------------------
  // Caret geometry

  /** A caret rectangle in document coordinates. */
  datatype Rect = Rect(x: int, y: int, w: int, h: int)

  /** A rectangle as the browser reports it, relative to the viewport. */
  datatype ClientRect = ClientRect(left: int, top: int, width: int, height: int)

  /** A caret rectangle tagged with the text index it was measured at. */
  datatype TaggedRect = TaggedRect(rect: Rect, start: int, length: int)

  /** The browser's layout: window scroll, the element's offset position, and
      the client rect of a caret collapsed at each text index. */
  datatype View = View(scrollX: int, scrollY: int, offsetLeft: int, offsetTop: int,
                       caretBox: int -> ClientRect)

  /** getCaretRect. Nothing without a selection. A measured range of positive
      height is moved into document coordinates; otherwise (an empty element)
      the element's own offset position with zero size stands in. */
  function GetCaretRect(d: DomSel, box: ClientRect, v: View): (r: Option<Rect>)
    ensures r.None? <==> d.NoSelection?
    ensures r.Some? && box.height > 0 ==>
      r.value == Rect(v.scrollX + box.left, v.scrollY + box.top, box.width, box.height)
    ensures r.Some? && box.height <= 0 ==> r.value == Rect(v.offsetLeft, v.offsetTop, 0, 0)
    ensures r.Some? ==> (r.value.h > 0 <==> box.height > 0)
  {
    if d.NoSelection? then None
    else if box.height > 0 then
      Some(Rect(v.scrollX + box.left, v.scrollY + box.top, box.width, box.height))
    else
      Some(Rect(v.offsetLeft, v.offsetTop, 0, 0))
  }

  /** isEqualCaretRect: both absent, or both present with equal coordinates
      and size. It is therefore reflexive, symmetric and transitive. */
  function IsEqualCaretRect(a: Option<Rect>, b: Option<Rect>): (r: bool)
    ensures r <==> a == b
  {
    match (a, b)
    case (Some(p), Some(q)) => p.x == q.x && p.y == q.y && p.w == q.w && p.h == q.h
    case (None, None) => true
    case _ => false
  }

  /** The measurement getCaretRectByIndex makes, and the selection it leaves. */
  datatype Probe = Probe(rect: TaggedRect, selection: DomSel)

  /** getCaretRectByIndex: collapses the selection at index i of the first
      child (no clipping), reads the caret rect back and tags it. */
  function CaretRectByIndex(el: Element, i: int, v: View): (p: Probe)
    ensures p.selection == Apply(NoSelection, [Collapse(FirstChildOrElement(el), i)])
    ensures GetDomSelection(Some(el.id), p.selection) == Some(Sel(i, Some(i)))
    ensures GetCaretRect(p.selection, v.caretBox(i), v) == Some(p.rect.rect)
    ensures p.rect.start == i && p.rect.length == 0
  {
    var d := ApplyOp(NoSelection, Collapse(FirstChildOrElement(el), i));
    match GetCaretRect(d, v.caretBox(i), v)
    case Some(r) => Probe(TaggedRect(r, i, 0), d)
  }

  /** getCaretRects: one tagged caret rect for every index 0..n of a text of
      length n, in index order. */
  function CaretRects(el: Element, v: View): (rects: seq<TaggedRect>)
    ensures |rects| == TextLength(el) + 1
    ensures forall i :: 0 <= i < |rects| ==> rects[i].start == i && rects[i].length == 0
    ensures forall i :: 0 <= i < |rects| ==> rects[i] == CaretRectByIndex(el, i, v).rect
  {
    seq(TextLength(el) + 1, i => CaretRectByIndex(el, i, v).rect)
  }

  /** The selection calls getCaretRects makes while measuring. */
  function CaretScanOps(el: Element): (ops: seq<SelOp>)
    ensures |ops| == TextLength(el) + 1
  {
    seq(TextLength(el) + 1, i => Collapse(FirstChildOrElement(el), i))
  }

  lemma {:induction false} ApplyCollapses(d: DomSel, ops: seq<SelOp>, n: Node)
    requires |ops| > 0
    requires forall i :: 0 <= i < |ops| ==> ops[i].Collapse? && ops[i].node == n
    ensures Apply(d, ops) == Selected(n, ops[|ops| - 1].offset, ops[|ops| - 1].offset)
    decreases |ops|
  {
    if |ops| > 1 {
      ApplyCollapses(ApplyOp(d, ops[0]), ops[1..], n);
    }
  }

  /** Measuring every caret position leaves the caret at the end of the text. */
  lemma CaretScanLeavesCaretAtEnd(el: Element, d: DomSel)
    ensures Apply(d, CaretScanOps(el)) ==
      Selected(FirstChildOrElement(el), TextLength(el), TextLength(el))
  {
    ApplyCollapses(d, CaretScanOps(el), FirstChildOrElement(el));
  }

  /** Squared distance from a caret rect's corner to a point; the square root
      the source takes is strictly increasing, so it orders candidates the
      same way. */
  function SqDist(r: Rect, p: Rect): (d: int)
    ensures d >= 0
    ensures d == 0 <==> r.x == p.x && r.y == p.y
  {
    (r.x - p.x) * (r.x - p.x) + (r.y - p.y) * (r.y - p.y)
  }

  /** k is the first candidate of minimum distance to p. */
  predicate IsFirstNearest(rects: seq<TaggedRect>, p: Rect, k: int)
  {
    && 0 <= k < |rects|
    && (forall j :: 0 <= j < |rects| ==> SqDist(rects[k].rect, p) <= SqDist(rects[j].rect, p))
    && (forall j :: 0 <= j < k ==> SqDist(rects[k].rect, p) < SqDist(rects[j].rect, p))
  }

  /** There is exactly one first nearest candidate. */
  lemma FirstNearestUnique(rects: seq<TaggedRect>, p: Rect, k1: int, k2: int)
    requires IsFirstNearest(rects, p, k1) && IsFirstNearest(rects, p, k2)
    ensures k1 == k2
  {
    assert SqDist(rects[k1].rect, p) <= SqDist(rects[k2].rect, p);
    assert SqDist(rects[k2].rect, p) <= SqDist(rects[k1].rect, p);
  }

  /** The scan of findNearestCaretStart over a non-empty candidate list,
      replacing the best candidate only on a strictly smaller distance. */
  function FirstNearest(rects: seq<TaggedRect>, p: Rect): (k: nat)
    requires |rects| > 0
    ensures IsFirstNearest(rects, p, k)
    decreases |rects|
  {
    if |rects| == 1 then 0
    else
      var last := |rects| - 1;
      var k := FirstNearest(rects[..last], p);
      assert forall j :: 0 <= j < last ==> rects[..last][j] == rects[j];
      if SqDist(rects[last].rect, p) < SqDist(rects[k].rect, p) then last else k
  }

  /** The caret index findNearestCaretStart settles on. */
  function NearestCaretStart(el: Element, p: Rect, v: View): (k: int)
    ensures 0 <= k <= TextLength(el)
    ensures IsFirstNearest(CaretRects(el, v), p, k)
  {
    var rects := CaretRects(el, v);
    rects[FirstNearest(rects, p)].start
  }

  /** findNearestCaretStart: scans the caret rects of indices 0..n and returns
      the index of the first one nearest to p. */
  method FindNearestCaretStart(el: Element, p: Rect, v: View) returns (k: int)
    ensures 0 <= k <= TextLength(el)
    ensures IsFirstNearest(CaretRects(el, v), p, k)
    ensures k == NearestCaretStart(el, p, v)
  {
    var rects := CaretRects(el, v);
    var next: Option<TaggedRect> := None;
    var minDistance := 0;
    ghost var best := 0;
    var i := 0;
    while i < |rects|
      invariant 0 <= i <= |rects|
      invariant next.None? <==> i == 0
      invariant 0 <= best < |rects|
      invariant next.Some? ==> best < i && next.value == rects[best]
      invariant next.Some? ==> minDistance == SqDist(rects[best].rect, p)
      invariant forall j :: 0 <= j < i ==> minDistance <= SqDist(rects[j].rect, p)
      invariant forall j :: 0 <= j < best ==> minDistance < SqDist(rects[j].rect, p)
    {
      var distance := SqDist(rects[i].rect, p);
      if next.None? || distance < minDistance {
        next := Some(rects[i]);
        minDistance := distance;
        best := i;
      }
      i := i + 1;
    }
    k := if next.Some? then next.value.start else 0;
    FirstNearestUnique(rects, p, k, NearestCaretStart(el, p, v));
  }

  /** A caret measured at index i of a laid-out text sits where the layout
      puts it, moved by the window scroll. */
  lemma MeasuredCaret(el: Element, i: int, v: View)
    requires 0 <= i <= TextLength(el) && v.caretBox(i).height > 0
    ensures CaretRects(el, v)[i].rect
            == Rect(v.scrollX + v.caretBox(i).left, v.scrollY + v.caretBox(i).top,
                    v.caretBox(i).width, v.caretBox(i).height)
  {
  }

  /** A three-character text laid out with carets at x = 0, 2, 4, 6 and
      y = 3, without scrolling. */
  function ExampleView(): View
  {
    View(0, 0, 0, 0, i => ClientRect(2 * i, 3, 4, 5))
  }

  /** The caret at index i of "ABC" in that layout. */
  lemma ExampleCaret(i: int)
    requires 0 <= i <= 3
    ensures |CaretRects(Element(1, ["ABC"]), ExampleView())| == 4
    ensures CaretRects(Element(1, ["ABC"]), ExampleView())[i] == TaggedRect(Rect(2 * i, 3, 4, 5), i, 0)
  {
    var el := Element(1, ["ABC"]);
    assert ["ABC"][1..] == [];
    assert TextLength(el) == 3;
    MeasuredCaret(el, i, ExampleView());
  }

  /** All four caret rects of "ABC" in that layout, tagged with their index. */
  lemma ExampleCaretRects()
    ensures CaretRects(Element(1, ["ABC"]), ExampleView())
      == [TaggedRect(Rect(0, 3, 4, 5), 0, 0), TaggedRect(Rect(2, 3, 4, 5), 1, 0),
          TaggedRect(Rect(4, 3, 4, 5), 2, 0), TaggedRect(Rect(6, 3, 4, 5), 3, 0)]
  {
    ExampleCaret(0);
    ExampleCaret(1);
    ExampleCaret(2);
    ExampleCaret(3);
  }

  /** In that layout the point (2, 10) is nearest to the caret at index 1. */
  lemma NearestCaretExample()
    ensures NearestCaretStart(Element(1, ["ABC"]), Rect(2, 10, 0, 0), ExampleView()) == 1
  {
    var p := Rect(2, 10, 0, 0);
    var rects := [TaggedRect(Rect(0, 3, 4, 5), 0, 0), TaggedRect(Rect(2, 3, 4, 5), 1, 0),
                  TaggedRect(Rect(4, 3, 4, 5), 2, 0), TaggedRect(Rect(6, 3, 4, 5), 3, 0)];
    assert SqDist(rects[0].rect, p) == 53;
    assert SqDist(rects[1].rect, p) == 49;
    assert SqDist(rects[2].rect, p) == 53;
    assert SqDist(rects[3].rect, p) == 65;
    assert IsFirstNearest(rects, p, 1);
    ExampleCaretRects();
    FirstNearestUnique(rects, p, 1, NearestCaretStart(Element(1, ["ABC"]), p, ExampleView()));
  }
}

=== FILE: editable.dfy ===
/** The editable div component (src/index.js) as a state machine.

    The component holds one piece of state, the pending selection captured
    on input and given back after the next render. Each event handler and
    the render-commit step are functions from a `State` (pending selection,
    browser selection, focus, the element's text children) to the next
    state and the effects the handler has, in order: selection calls,
    preventDefault/stopPropagation, text insertion and the consumer
    callbacks it invokes. */
module Editable {
  import opened Wrappers
  import opened Dom

  datatype KeyEvent = KeyEvent(key: string, ctrlKey: bool, metaKey: bool)

  /** The keys whose ctrl/meta shortcut would apply bold, italic or underline. */
  const FormattingKeys: set<string> := {"B", "b", "I", "i", "U", "u"}

  /** isAllowedKeyDown: ctrl or meta with B, I or U (either case) is refused;
      every other key press, Enter and unmodified letters included, is let
      through. */
  function IsAllowedKeyDown(e: KeyEvent): (allowed: bool)
    ensures !allowed <==> (e.ctrlKey || e.metaKey) && e.key in FormattingKeys
  {
    if e.ctrlKey || e.metaKey then
      if e.key == "B" || e.key == "b" then false
      else if e.key == "I" || e.key == "i" then false
      else if e.key == "U" || e.key == "u" then false
      else true
    else
      true
  }

  /** The consumer callbacks whose invocation the model tracks. */
  datatype Callback = OnKeyDown | OnInput | OnPaste | OnFocusLost

  datatype Effect =
    | SelectionChange(op: SelOp)
    | PreventDefault
    | StopPropagation
    | InsertText(text: string)
    | Focus
    | Notify(callback: Callback)
    | Raise(error: JsError)

  /** The props that steer the logic: autoFocus, lastCaretRect and which
      callbacks the consumer supplied. */
  datatype Props = Props(autoFocus: bool, lastCaretRect: Option<Rect>, callbacks: set<Callback>)

  /** `pending` is the component's held selection; `selection` and `focused`
      are the browser's selection and whether the element is the active one. */
  datatype State = State(pending: Option<Sel>, selection: DomSel, focused: bool, element: Element)

  datatype Step = Step(state: State, effects: seq<Effect>)

  function SelectionChanges(ops: seq<SelOp>): (effects: seq<Effect>)
    ensures |effects| == |ops|
    ensures forall i :: 0 <= i < |ops| ==> effects[i] == SelectionChange(ops[i])
  {
    seq(|ops|, i requires 0 <= i < |ops| => SelectionChange(ops[i]))
  }

  /** The call `if (props.cb) props.cb(e)`. */
  function NotifyIf(props: Props, cb: Callback): seq<Effect>
  {
    if cb in props.callbacks then [Notify(cb)] else []
  }

  predicate Notified(effects: seq<Effect>, cb: Callback)
  {
    Notify(cb) in effects
  }

  // ---------------------------------------------------------------------
  // Key down, blur, input

  /** The keys for which handleKeyDown enriches the event with caret
      measurements. */
  predicate IsVerticalArrow(key: string)
  {
    key == "ArrowDown" || key == "ArrowUp"
  }

  /** handleKeyDown as written: preventDefault exactly for a refused key.
      ArrowUp and ArrowDown are enriched with the caret line, whose
      computation reads `.y` of getCaretRect; without a selection that rect
      is undefined, so the handler throws a TypeError and onKeyDown is never
      reached. Otherwise onKeyDown, when supplied, runs last. */
  function HandleKeyDown(props: Props, e: KeyEvent, sel: DomSel): (effects: seq<Effect>)
    ensures PreventDefault in effects <==> !IsAllowedKeyDown(e)
    ensures Raise(TypeError) in effects <==> IsVerticalArrow(e.key) && sel.NoSelection?
    ensures Notified(effects, OnKeyDown)
        <==> OnKeyDown in props.callbacks && !(IsVerticalArrow(e.key) && sel.NoSelection?)
    ensures Notified(effects, OnKeyDown) ==> effects[|effects| - 1] == Notify(OnKeyDown)
    ensures Raise(TypeError) in effects ==> effects[|effects| - 1] == Raise(TypeError)
    ensures forall i :: 0 <= i < |effects| ==> effects[i] in {PreventDefault, Notify(OnKeyDown), Raise(TypeError)}
  {
    (if IsAllowedKeyDown(e) then [] else [PreventDefault])
    + (if IsVerticalArrow(e.key) && sel.NoSelection? then [Raise(TypeError)]
       else NotifyIf(props, OnKeyDown))
  }

  /** handleKeyDown with the caret measurements taken only while a selection
      exists: the event always reaches onKeyDown when it is supplied. */
  function HandleKeyDownGuarded(props: Props, e: KeyEvent, sel: DomSel): (effects: seq<Effect>)
    ensures PreventDefault in effects <==> !IsAllowedKeyDown(e)
    ensures Notified(effects, OnKeyDown) <==> OnKeyDown in props.callbacks
    ensures Notified(effects, OnKeyDown) ==> effects[|effects| - 1] == Notify(OnKeyDown)
    ensures forall i :: 0 <= i < |effects| ==> effects[i] in {PreventDefault, Notify(OnKeyDown)}
  {
    (if IsAllowedKeyDown(e) then [] else [PreventDefault]) + NotifyIf(props, OnKeyDown)
  }

  /** The guard changes nothing except for an up or down arrow pressed
      without a selection. */
  lemma KeyDownGuardAgrees(props: Props, e: KeyEvent, sel: DomSel)
    ensures HandleKeyDown(props, e, sel) == HandleKeyDownGuarded(props, e, sel)
        <==> !(IsVerticalArrow(e.key) && sel.NoSelection?)
  {
  }

  /** handleFocusLost: forgets the pending selection before onFocusLost runs;
      nothing else changes. */
  function HandleFocusLost(s: State, props: Props): (r: Step)
    ensures r.state == s.(pending := None)
    ensures Notified(r.effects, OnFocusLost) <==> OnFocusLost in props.callbacks
    ensures forall i :: 0 <= i < |r.effects| ==> r.effects[i] == Notify(OnFocusLost)
  {
    Step(s.(pending := None), NotifyIf(props, OnFocusLost))
  }

  /** The part of handleInput before onInput: the browser selection becomes
      the pending selection (absent when it lies outside the element), then
      the browser selection is cleared. */
  function CaptureAndClear(s: State): (r: Step)
    ensures r.state.pending == GetDomSelection(Some(s.element.id), s.selection)
    ensures r.state.selection == NoSelection
    ensures r.state.focused == s.focused && r.state.element == s.element
    ensures r.effects == [SelectionChange(RemoveAllRanges)]
  {
    var clear := SetDomSelection(s.element, None);
    ApplyOne(s.selection, RemoveAllRanges);
    Step(s.(pending := GetDomSelection(Some(s.element.id), s.selection),
            selection := Apply(s.selection, clear)),
         SelectionChanges(clear))
  }

  /** handleInput: captures the browser selection as the pending selection,
      clears the browser selection, and only then calls onInput. */
  function HandleInput(s: State, props: Props): (r: Step)
    ensures r.state == CaptureAndClear(s).state
    ensures |r.effects| > 0 && r.effects[0] == SelectionChange(RemoveAllRanges)
    ensures Notified(r.effects, OnInput) <==> OnInput in props.callbacks
    ensures Notified(r.effects, OnInput) ==> r.effects[|r.effects| - 1] == Notify(OnInput)
    ensures forall i :: 1 <= i < |r.effects| ==> r.effects[i] == Notify(OnInput)
  {
    var c := CaptureAndClear(s);
    Step(c.state, c.effects + NotifyIf(props, OnInput))
  }

  // ---------------------------------------------------------------------
  // Render commit

  /** The first child is the text node holding only a line break that
      Firefox leaves behind when the last character is deleted. */
  predicate HasLeftoverLineBreak(el: Element)
  {
    |el.children| > 0 && el.children[0] == "\n"
  }

  /** A first child whose text is exactly a line break is removed; any other
      first child stays, and the element keeps its identity. */
  function RemoveLeftoverLineBreak(el: Element): (r: Element)
    ensures r.id == el.id
    ensures HasLeftoverLineBreak(el) ==>
      r.children == el.children[1..] && TextOf(el) == "\n" + TextOf(r)
    ensures !HasLeftoverLineBreak(el) ==> r == el
  {
    if HasLeftoverLineBreak(el) then el.(children := el.children[1..])
    else el
  }

  /** The selection once removeChild has taken away the first child of
      element `id`, under the "remove" steps of the DOM Standard: a boundary
      point inside the removed node moves to (element, 0), an offset in the
      element itself past the removed child drops by one, and the later
      children move down one index. A selection in any other element stays
      as it is. */
  function SelectionAfterFirstChildRemoved(id: nat, d: DomSel): (r: DomSel)
    ensures r.NoSelection? <==> d.NoSelection?
    ensures d.Selected? && d.anchor == TextNode(id, 0) ==> r == Selected(ElementNode(id), 0, 0)
    ensures d.Selected? && d.anchor.TextNode? && d.anchor.parent == id && d.anchor.index > 0 ==>
      r == Selected(TextNode(id, d.anchor.index - 1), d.startOffset, d.endOffset)
    ensures d.Selected? && d.anchor == ElementNode(id) ==>
      && r.Selected? && r.anchor == d.anchor
      && (d.startOffset > 0 ==> r.startOffset == d.startOffset - 1)
      && (d.startOffset <= 0 ==> r.startOffset == d.startOffset)
      && (d.endOffset > 0 ==> r.endOffset == d.endOffset - 1)
      && (d.endOffset <= 0 ==> r.endOffset == d.endOffset)
    ensures d.Selected? && ContainingDiv(d.anchor) != id ==> r == d
    ensures r.Selected? ==> ContainingDiv(r.anchor) == ContainingDiv(d.anchor)
  {
    match d
    case NoSelection => NoSelection
    case Selected(n, so, eo) =>
      if ContainingDiv(n) != id then d
      else
        match n
        case TextNode(_, k) =>
          if k == 0 then Selected(ElementNode(id), 0, 0) else Selected(TextNode(id, k - 1), so, eo)
        case ElementNode(_) =>
          Selected(n, if so > 0 then so - 1 else so, if eo > 0 then eo - 1 else eo)
  }

  /** The selection the leftover line break's removal leaves: the removal
      moves it as above, and without a leftover line break nothing moves. */
  function SelectionAfterCleanup(el: Element, d: DomSel): DomSel
  {
    if HasLeftoverLineBreak(el) then SelectionAfterFirstChildRemoved(el.id, d) else d
  }

  /** Removing the leftover line break keeps a selection in the element
      inside it, and one outside it outside. */
  lemma CleanupKeepsSelectionInElement(el: Element, d: DomSel)
    ensures GetDomSelection(Some(el.id), SelectionAfterCleanup(el, d)).Some?
        <==> GetDomSelection(Some(el.id), d).Some?
  {
  }

  /** The selection calls of the autoFocus step: measuring every caret
      position, then a caret at the one nearest to lastCaretRect. */
  function PlaceNearestCaret(el: Element, p: Rect, v: View): (ops: seq<SelOp>)
    ensures |ops| > 0
    ensures forall d :: Apply(d, ops) == Selected(FirstChildOrElement(el),
                                                  NearestCaretStart(el, p, v), NearestCaretStart(el, p, v))
  {
    var k := NearestCaretStart(el, p, v);
    var ops := CaretScanOps(el) + SetDomSelection(el, Some(Sel(k, None)));
    assert forall d :: Apply(d, ops) == Selected(FirstChildOrElement(el), k, k) by {
      forall d
        ensures Apply(d, ops) == Selected(FirstChildOrElement(el), k, k)
      {
        ApplyConcat(d, CaretScanOps(el), SetDomSelection(el, Some(Sel(k, None))));
        ApplyOne(Apply(d, CaretScanOps(el)), Collapse(FirstChildOrElement(el), k));
      }
    }
    ops
  }

  /** The effects of a commit, in order: the placement's selection calls,
      focus() with autoFocus, then the restore's selection calls. No
      consumer callback is called. */
  function CommitEffects(placed: seq<SelOp>, autoFocus: bool, restore: seq<SelOp>): (effects: seq<Effect>)
    ensures Focus in effects <==> autoFocus
    ensures forall i :: 0 <= i < |effects| ==> effects[i].SelectionChange? || effects[i] == Focus
  {
    SelectionChanges(placed) + (if autoFocus then [Focus] else []) + SelectionChanges(restore)
  }

  /** The effect that runs after every render: drop a leftover line break;
      with autoFocus, move the caret nearest to lastCaretRect (when given) and
      focus the element; finally, while a selection is pending and the element
      has the focus, give the pending selection back. */
  function RenderCommit(s: State, props: Props, v: View): (r: Step)
    ensures r.state.pending == s.pending
    ensures r.state.element == RemoveLeftoverLineBreak(s.element)
    ensures r.state.focused == (s.focused || props.autoFocus)
    ensures Focus in r.effects <==> props.autoFocus
    ensures forall i :: 0 <= i < |r.effects| ==> r.effects[i].SelectionChange? || r.effects[i] == Focus
  {
    var el := RemoveLeftoverLineBreak(s.element);
    var placed :=
      if props.autoFocus && props.lastCaretRect.Some? then
        PlaceNearestCaret(el, props.lastCaretRect.value, v)
      else [];
    var focused := s.focused || props.autoFocus;
    var restore := if s.pending.Some? && focused then SetDomSelection(el, s.pending) else [];
    Step(State(s.pending, Apply(Apply(SelectionAfterCleanup(s.element, s.selection), placed), restore),
               focused, el),
         CommitEffects(placed, props.autoFocus, restore))
  }

  /** With a selection pending on a focused element, the commit leaves exactly
      the selection setDomSelection makes of it, whatever the autoFocus step
      did before. */
  lemma CommitRestoresPending(s: State, props: Props, v: View)
    requires s.pending.Some? && (s.focused || props.autoFocus)
    ensures RenderCommit(s, props, v).state.selection
         == Apply(NoSelection, SetDomSelection(RemoveLeftoverLineBreak(s.element), s.pending))
  {
    var el := RemoveLeftoverLineBreak(s.element);
    var placed :=
      if props.autoFocus && props.lastCaretRect.Some? then
        PlaceNearestCaret(el, props.lastCaretRect.value, v)
      else [];
    SetOverridesPrior(el, s.pending.value, Apply(SelectionAfterCleanup(s.element, s.selection), placed),
                      NoSelection);
  }

  /** Without a caret to place near lastCaretRect, and without a pending
      selection or the focus, the commit moves the browser selection only as
      far as removing a leftover line break does, and not at all otherwise. */
  lemma CommitKeepsSelection(s: State, props: Props, v: View)
    requires !(props.autoFocus && props.lastCaretRect.Some?)
    requires s.pending.None? || !(s.focused || props.autoFocus)
    ensures RenderCommit(s, props, v).state.selection == SelectionAfterCleanup(s.element, s.selection)
    ensures !HasLeftoverLineBreak(s.element) ==> RenderCommit(s, props, v).state.selection == s.selection
  {
  }

  /** Firefox's leftover line break with the caret in it: the commit removes
      the node, and the caret reads back at the start of the element. */
  lemma LineBreakRemovalMovesCaret()
    ensures
      var s := State(None, Selected(TextNode(1, 0), 1, 1), true, Element(1, ["\n"]));
      var r := RenderCommit(s, Props(false, None, {}), ExampleView()).state;
      && r.element.children == []
      && GetDomSelection(Some(1), r.selection) == Some(Sel(0, Some(0)))
  {
    var s := State(None, Selected(TextNode(1, 0), 1, 1), true, Element(1, ["\n"]));
    CommitKeepsSelection(s, Props(false, None, {}), ExampleView());
  }

  /** With autoFocus and a lastCaretRect but nothing pending, the caret ends
      at the nearest caret index of the cleaned element. */
  lemma AutoFocusPlacesNearestCaret(s: State, props: Props, v: View)
    requires props.autoFocus && props.lastCaretRect.Some? && s.pending.None?
    ensures var el := RemoveLeftoverLineBreak(s.element);
            var k := NearestCaretStart(el, props.lastCaretRect.value, v);
            RenderCommit(s, props, v).state.selection == Selected(FirstChildOrElement(el), k, k)
  {
  }

  /** The round trip the pending selection exists for: an input followed by a
      render on the focused element puts back the selection the user had,
      when it was an ordered range in the text's first child and no leftover
      line break is removed; autoFocus makes no difference, since the restore
      comes last. */
  lemma InputThenCommitRestoresSelection(s: State, props: Props, v: View)
    requires s.focused
    requires !HasLeftoverLineBreak(s.element)
    requires s.selection.Selected? && s.selection.anchor == FirstChildOrElement(s.element)
    requires 0 <= s.selection.startOffset <= s.selection.endOffset <= TextLength(s.element)
    ensures RenderCommit(HandleInput(s, props).state, props, v).state.selection == s.selection
  {
    CommitRestoresPending(HandleInput(s, props).state, props, v);
    GetThenSetRoundTrip(s.element, s.selection, NoSelection);
  }

  /** After a blur the commit no longer restores a selection, even if the
      element still had the focus: without a caret to place near
      lastCaretRect, only removing a leftover line break moves it. */
  lemma FocusLostThenCommitKeepsSelection(s: State, props: Props, v: View)
    requires !(props.autoFocus && props.lastCaretRect.Some?)
    ensures RenderCommit(HandleFocusLost(s, props).state, props, v).state.selection
         == SelectionAfterCleanup(s.element, s.selection)
    ensures !HasLeftoverLineBreak(s.element) ==>
      RenderCommit(HandleFocusLost(s, props).state, props, v).state.selection == s.selection
  {
  }

  // ---------------------------------------------------------------------
  // Paste

  /** A paste event: whether it arrived already handled, the clipboard's
      plain text (absent when there is no clipboardData), and whether the
      consumer's onPaste calls preventDefault. */
  datatype PasteEvent = PasteEvent(defaultPrevented: bool, clipboardText: Option<string>,
                                   consumerPrevents: bool)

  /** The event counts as handled once the consumer has had its chance. */
  predicate PasteHandled(props: Props, e: PasteEvent)
  {
    e.defaultPrevented || (OnPaste in props.callbacks && e.consumerPrevents)
  }

  /** The paste carries non-empty plain text and nobody handled it. */
  predicate PastesText(props: Props, e: PasteEvent)
  {
    !PasteHandled(props, e) && e.clipboardText.Some? && |e.clipboardText.value| > 0
  }

  /** No consumer callback among the effects. */
  predicate Silent(effects: seq<Effect>)
  {
    forall i :: 0 <= i < |effects| ==> !effects[i].Notify?
  }

  /** What a paste does once onPaste has run: its effects up to onInput,
      whether it goes on to onInput, and the state it leaves. */
  datatype PasteTail = PasteTail(state: State, effects: seq<Effect>, input: bool)

  /** The state right after a successful insertion: the selection the
      insertion leaves and, when it wrote into this element, its new text. */
  function AfterInsertion(s: State, done: Inserted): State
  {
    s.(selection := done.selection,
       element := if done.target.id == s.element.id then done.target else s.element)
  }

  /** The paste logic after onPaste. After inserting, the source calls
      onInput directly (`viaInput` false); the corrected path first runs the
      part of the input handler before onInput, so the caret after the
      pasted text becomes the pending selection (`viaInput` true). */
  function PasteAfterConsumer(s: State, props: Props, e: PasteEvent, ins: Insertion,
                              viaInput: bool): (t: PasteTail)
    ensures Silent(t.effects)
    ensures PreventDefault in t.effects <==> !PasteHandled(props, e) && e.clipboardText.Some?
    ensures StopPropagation in t.effects <==> PreventDefault in t.effects
    ensures forall x :: InsertText(x) in t.effects ==> PastesText(props, e) && x == e.clipboardText.value
    ensures t.input <==>
      PastesText(props, e) && InsertTextAtSelection(s.selection, e.clipboardText.value, ins).Success?
    ensures t.input ==> InsertText(e.clipboardText.value) in t.effects
    ensures PastesText(props, e) ==>
      var out := InsertTextAtSelection(s.selection, e.clipboardText.value, ins);
      && (out.Failure? ==> t.state == s && |t.effects| > 0 && t.effects[|t.effects| - 1] == Raise(out.error))
      && (out.Success? && !viaInput ==> t.state == AfterInsertion(s, out.value))
      && (out.Success? && viaInput ==> t.state == CaptureAndClear(AfterInsertion(s, out.value)).state)
    ensures !PastesText(props, e) ==> t.state == s
    ensures !viaInput ==> t.state.pending == s.pending
    ensures t.state.focused == s.focused
  {
    if PasteHandled(props, e) || e.clipboardText.None? then PasteTail(s, [], false)
    else
      var suppressed := [StopPropagation, PreventDefault];
      var text := e.clipboardText.value;
      if |text| == 0 then PasteTail(s, suppressed, false)
      else
        match InsertTextAtSelection(s.selection, text, ins)
        case Failure(err) => PasteTail(s, suppressed + [Raise(err)], false)
        case Success(done) =>
          var inserted := AfterInsertion(s, done);
          var changes := suppressed + [InsertText(text)] + SelectionChanges(done.ops);
          assert changes[2] == InsertText(text);
          if viaInput then
            var c := CaptureAndClear(inserted);
            PasteTail(c.state, changes + c.effects, true)
          else
            PasteTail(inserted, changes, true)
  }

  /** The whole paste: onPaste first, then the rest, and onInput last once
      the text went in. */
  function Paste(s: State, props: Props, e: PasteEvent, ins: Insertion, viaInput: bool): (r: Step)
    ensures Notified(r.effects, OnPaste) <==> OnPaste in props.callbacks
    ensures OnPaste in props.callbacks ==> r.effects[0] == Notify(OnPaste)
    ensures r.state == PasteAfterConsumer(s, props, e, ins, viaInput).state
  {
    var t := PasteAfterConsumer(s, props, e, ins, viaInput);
    Step(t.state, NotifyIf(props, OnPaste) + t.effects
                  + (if t.input then NotifyIf(props, OnInput) else []))
  }

  /** The order of a paste's callbacks: onPaste first exactly when it is
      supplied; onInput only after the clipboard's plain text went in, and
      then last; no other callback is called. */
  ghost predicate PasteCallbacksOrdered(props: Props, e: PasteEvent, effects: seq<Effect>)
  {
    && (OnPaste in props.callbacks ==> |effects| > 0 && effects[0] == Notify(OnPaste))
    && (Notified(effects, OnPaste) <==> OnPaste in props.callbacks)
    && (Notified(effects, OnInput) ==>
          && PastesText(props, e) && OnInput in props.callbacks
          && InsertText(e.clipboardText.value) in effects
          && effects[|effects| - 1] == Notify(OnInput))
    && (forall i :: 0 <= i < |effects| && effects[i].Notify? ==> effects[i].callback in {OnPaste, OnInput})
  }

  /** Default and propagation are suppressed together, exactly for an
      unhandled paste with clipboard data, and only the clipboard's plain
      text is ever inserted. */
  ghost predicate PasteSuppressed(props: Props, e: PasteEvent, effects: seq<Effect>)
  {
    && (PreventDefault in effects <==> !PasteHandled(props, e) && e.clipboardText.Some?)
    && (StopPropagation in effects <==> PreventDefault in effects)
    && (forall x :: InsertText(x) in effects ==> PastesText(props, e) && x == e.clipboardText.value)
  }

  /** What a paste achieves: for unhandled non-empty text, a successful
      insertion puts the text in and goes on to onInput when supplied, and a
      failed one ends in its exception without onInput; any other paste calls
      no onInput. */
  ghost predicate PasteOutcomeEffects(s: State, props: Props, e: PasteEvent, ins: Insertion, effects: seq<Effect>)
  {
    && (PastesText(props, e) ==>
          var out := InsertTextAtSelection(s.selection, e.clipboardText.value, ins);
          && (out.Success? ==>
                && InsertText(e.clipboardText.value) in effects
                && (Notified(effects, OnInput) <==> OnInput in props.callbacks))
          && (out.Failure? ==> Raise(out.error) in effects && !Notified(effects, OnInput)))
    && (!PastesText(props, e) ==> !Notified(effects, OnInput))
  }

  /** handlePaste as written: its callbacks ordered, default and propagation
      suppressed, and the outcome as above, with onInput at most once. The
      state is the one the insertion leaves, and unchanged when nothing was
      inserted; the pending selection is not touched. */
  function HandlePaste(s: State, props: Props, e: PasteEvent, ins: Insertion): (r: Step)
    ensures PasteCallbacksOrdered(props, e, r.effects)
    ensures PasteSuppressed(props, e, r.effects)
    ensures PasteOutcomeEffects(s, props, e, ins, r.effects)
    ensures multiset(r.effects)[Notify(OnInput)] <= 1
    ensures PastesText(props, e) ==>
      var out := InsertTextAtSelection(s.selection, e.clipboardText.value, ins);
      && (out.Success? ==> r.state == AfterInsertion(s, out.value))
      && (out.Failure? ==> r.state == s)
    ensures !PastesText(props, e) ==> r.state == s
    ensures r.state.pending == s.pending && r.state.focused == s.focused
  {
    var r := Paste(s, props, e, ins, false);
    PasteOrder(s, props, e, ins, false);
    PasteSuppression(s, props, e, ins, false);
    PasteInputOnce(s, props, e, ins, false);
    PasteOutcome(s, props, e, ins, false);
    r
  }

  /** The order of a paste's effects: onPaste first, onInput last. */
  lemma PasteOrder(s: State, props: Props, e: PasteEvent, ins: Insertion, viaInput: bool)
    ensures PasteCallbacksOrdered(props, e, Paste(s, props, e, ins, viaInput).effects)
  {
  }

  /** The browser-facing effects of a paste are those of the part after
      onPaste. */
  lemma PasteSuppression(s: State, props: Props, e: PasteEvent, ins: Insertion, viaInput: bool)
    ensures PasteSuppressed(props, e, Paste(s, props, e, ins, viaInput).effects)
  {
  }

  /** onInput fires at most once per paste. */
  lemma PasteInputOnce(s: State, props: Props, e: PasteEvent, ins: Insertion, viaInput: bool)
    ensures multiset(Paste(s, props, e, ins, viaInput).effects)[Notify(OnInput)] <= 1
  {
    var t := PasteAfterConsumer(s, props, e, ins, viaInput);
    var first := NotifyIf(props, OnPaste);
    var last := if t.input then NotifyIf(props, OnInput) else [];
    assert Paste(s, props, e, ins, viaInput).effects == first + t.effects + last;
    assert Notify(OnInput) !in t.effects;
    assert multiset(first + t.effects + last) == multiset(first) + multiset(t.effects) + multiset(last);
  }

  /** What a paste of unhandled non-empty text achieves, for both
      variants. */
  lemma PasteOutcome(s: State, props: Props, e: PasteEvent, ins: Insertion, viaInput: bool)
    ensures PasteOutcomeEffects(s, props, e, ins, Paste(s, props, e, ins, viaInput).effects)
  {
  }

  /** The paste path as the input path would run it: like handlePaste, but
      the caret placed after the pasted text is captured as the pending
      selection (and the browser selection cleared) before onInput. */
  function HandlePasteViaInput(s: State, props: Props, e: PasteEvent, ins: Insertion): (r: Step)
    ensures PasteCallbacksOrdered(props, e, r.effects)
    ensures PasteSuppressed(props, e, r.effects)
    ensures PasteOutcomeEffects(s, props, e, ins, r.effects)
    ensures multiset(r.effects)[Notify(OnInput)] <= 1
    ensures PastesText(props, e) ==>
      var out := InsertTextAtSelection(s.selection, e.clipboardText.value, ins);
      && (out.Success? ==> r.state == CaptureAndClear(AfterInsertion(s, out.value)).state)
      && (out.Failure? ==> r.state == s)
    ensures !PastesText(props, e) ==> r.state == s
    ensures r.state.focused == s.focused
  {
    var r := Paste(s, props, e, ins, true);
    PasteOrder(s, props, e, ins, true);
    PasteSuppression(s, props, e, ins, true);
    PasteInputOnce(s, props, e, ins, true);
    PasteOutcome(s, props, e, ins, true);
    r
  }

  // ---------------------------------------------------------------------
  // The paste path and the pending selection

  /** As written, a paste leaves an older pending selection in place, so the
      render the consumer's onInput triggers moves the caret back to it: here
      the caret after pasting "X" at the end of "ab" is at 3, and the commit
      puts it at 0, where the last typed input left it. */
  lemma PasteRestoresStaleSelection()
    ensures
      var s := State(Some(Sel(0, Some(0))), Selected(TextNode(1, 0), 2, 2), true, Element(1, ["ab"]));
      var props := Props(false, None, {OnInput});
      var e := PasteEvent(false, Some("X"), false);
      var ins := Insertion(Selected(TextNode(1, 0), 2, 2), ["abX"]);
      var pasted := HandlePaste(s, props, e, ins).state;
      && pasted.selection == Selected(TextNode(1, 0), 3, 3)
      && RenderCommit(pasted, props, ExampleView()).state.selection == Selected(TextNode(1, 0), 0, 0)
  {
    var s := State(Some(Sel(0, Some(0))), Selected(TextNode(1, 0), 2, 2), true, Element(1, ["ab"]));
    var props := Props(false, None, {OnInput});
    var e := PasteEvent(false, Some("X"), false);
    var ins := Insertion(Selected(TextNode(1, 0), 2, 2), ["abX"]);
    var target := Element(1, ["abX"]);
    assert "ab" + "X" + "" == "abX";
    assert Utf16Length("ab") == 2 && Utf16Length("ab" + "X") == 3;
    InsertedCaretFollowsText(s.selection, "ab", "X", "", ins);
    var done := InsertTextAtSelection(s.selection, "X", ins).value;
    assert done.target == target;
    assert done.selection == Selected(TextNode(1, 0), 3, 3);
    var pasted := HandlePaste(s, props, e, ins).state;
    assert pasted == s.(selection := done.selection, element := target);
    CommitRestoresPending(pasted, props, ExampleView());
    ApplyOne(NoSelection, Collapse(TextNode(1, 0), 0));
  }

  /** With the paste running the input path, the render after a successful
      paste into the focused element, with the selection in it, keeps the
      caret right after the pasted text, whatever selection was pending
      before and whether or not autoFocus is set. */
  lemma PasteViaInputThenCommitKeepsCaret(s: State, props: Props, e: PasteEvent, ins: Insertion, v: View)
    requires s.focused
    requires s.selection.Selected? && ContainingDiv(s.selection.anchor) == s.element.id
    requires !HasLeftoverLineBreak(Element(s.element.id, ins.children))
    requires PastesText(props, e)
    requires InsertTextAtSelection(s.selection, e.clipboardText.value, ins).Success?
    ensures HandlePaste(s, props, e, ins).state.selection.IsCaret()
    ensures RenderCommit(HandlePasteViaInput(s, props, e, ins).state, props, v).state.selection
         == HandlePaste(s, props, e, ins).state.selection
  {
    var done := InsertTextAtSelection(s.selection, e.clipboardText.value, ins).value;
    var c := done.selection.startOffset;
    assert done.target.id == s.element.id;
    assert done.selection == Selected(FirstChildOrElement(done.target), c, c) && 0 <= c <= TextLength(done.target);
    var inserted := AfterInsertion(s, done);
    assert inserted.element == done.target;
    InputThenCommitRestoresSelection(inserted, props, v);
    assert HandlePaste(s, props, e, ins).state == inserted;
    assert HandlePasteViaInput(s, props, e, ins).state == HandleInput(inserted, props).state;
  }

  // ---------------------------------------------------------------------
  // Arrow keys without a selection

  /** The state in which the arrow-key enrichment throws is reachable: after
      an input whose selection lies outside the element, nothing is pending
      and the selection stays cleared through a commit without autoFocus, so
      a following ArrowDown throws and never reaches onKeyDown. */
  lemma InputOutsideThenArrowKeyThrows(s: State, props: Props, v: View)
    requires !props.autoFocus
    requires s.selection.Selected? && ContainingDiv(s.selection.anchor) != s.element.id
    ensures var c := RenderCommit(HandleInput(s, props).state, props, v).state;
      && c.selection == NoSelection
      && Raise(TypeError) in HandleKeyDown(props, KeyEvent("ArrowDown", false, false), c.selection)
      && !Notified(HandleKeyDown(props, KeyEvent("ArrowDown", false, false), c.selection), OnKeyDown)
  {
  }
}

=== FILE: wrappers.dfy ===
/** Optional values and results with an error, standing in for JavaScript's
    `undefined` and for exceptions thrown by browser calls. */
module Wrappers {

  /** A value that may be absent (`undefined` in the source). */
  datatype Option<+T> = None | Some(value: T)

  /** The outcome of a call that may throw. */
  datatype Result<+R, +E> = Success(value: R) | Failure(error: E)
}
